=== FILE: README.md ===
# gitbeam commit monitor — a Dafny model

This project models the core of the gitbeam commit monitor. The monitor mirrors a
GitHub repository's commits into a local commit store and answers queries
over them. A scheduler keeps one polling job per monitored repository and
records each monitoring config in a config store.

The model covers:

- **Mirroring** (`Core`). `FetchAndSaveCommits` pages through the
  upstream commit list. It checks the rate limit before each page, maps each
  upstream commit to a stored `Commit`, saves the commits in order and
  follows `NextPage`. Its error policy is asymmetric: a rate-limit lookup
  error ends the run with no error, while a list error or a save error is
  returned. `ListCommits` runs one warm-up fetch when the store answers with
  an empty list, then queries again. `GetTopCommitAuthors`,
  `GetCommitsBySha` and `GetLastCommit` translate store errors.
- **Jobs** (`JobTracker`). A job's task computes its commit window: from the
  config's dates, or from the last stored commit's day to today. Both callers
  pass `Task(false)` (scheduler/scheduler.go:116, scheduler/job_tracker.go:123),
  so a config's FromDate and ToDate never reach a fetch. The task then runs
  a fetch whose error is dropped. The job ID is `repoName + "/" + ownerName`.
  The registry maps IDs to jobs and to stop channels. `addJob` ignores an ID
  it already has; `removeJob` closes and forgets the stop channel. The
  ticker period is `60 * time.Minute * DurationInHours`, computed in int64.
- **Scheduling** (`Scheduler`). `StartMirroringRepoCommits` replaces an
  existing config and its job, stores the new config, adds a job and
  publishes `gitbeam.commit.monitor.task.created`.
  `StopMirroringRepoCommits` deletes the config, removes its job and
  publishes `gitbeam.commit.monitor.task.deleted` with the deleted config.
  `loadExistingConfig` adds a job for every stored config and records each
  job's catch-up task.

Side effects are modelled as follows:

- **Commit store.** Its state is threaded as `rows`, the sequence of commits
  saved so far. Its save and its four queries are functions of that state (`Repository.DataStore`).
- **Config store.** Modelled as a map keyed by owner and repository name. Whether
  each of its three calls fails is a parameter (`Repository.ConfigAnswers`).
  A save is an insert into a table unique on (repo, owner), so it also fails
  whenever the key is already stored.
- **GitHub client.** Modelled as two functions: the rate-limit lookup (keyed by
  the page about to be requested) and the commit list call (`GitHub.Client`).
- **Clock and date parsing.** These are parameters of a task (`JobTracker.TaskEnv`).
- **Event store.** Modelled as the sequence of published events. Each event
  carries the config value instead of its JSON encoding.

Where the source has a surprising behaviour, the model keeps it and the
contracts state it:

- The list request names the filter's owner as both the owner and the
  repository (core/core.go:162).
- The job ID is not injective when a repository name contains `/`.
  `Models.JobKeyCollides` exhibits a collision.
  `SchedulerProperties.SharedIdOrphansConfig` shows the consequence: one config
  stays stored while its ID has no job.
- A config lookup error reads as "no config". As a result, Start after a failed
  lookup on a stored key skips the delete. Its insert then meets the stored key
  and fails, so the config cannot be replaced
  (`SchedulerProperties.LookupFailureRejectsRestart`). Stop returns nil while
  the config stays stored.
- `dependOnRateLimitingConstraints` never returns `(false, nil)`, so the
  caller's `!ok` branch is dead. `CoreProperties.FetchMakesChainRequests`
  shows that, with a store that accepts every save, every page whose
  rate-limit lookup succeeds is requested.
- Only `Task(false)` is ever called, so the date-range branch of a task, which
  uses the config's FromDate and ToDate, is dead.
- The ticker period wraps in int64. From -2562047 to 0 hours it is not
  positive, but -2562048 hours wraps to a positive period of about 292 years
  (`JobTracker.NegativeHoursWrapPositive`).

Some facts about the code that shape the model:

- **Page size.** The code asks for pages of 1000 (core/core.go:139).
- **No retries.** The code makes one list call per page and returns its error.
- **List call arguments.** The code passes the owner name as both the owner
  and the repository (core/core.go:162).
- **No validation.** Start stores the config as given. `DurationInHours` is
  not checked.
- **Stop errors.** A failed lookup in Stop returns nil. Only a failed delete
  returns an error.

## Model

| member | source | states |
|---|---|---|
| Models.JobKey | models/cron_tracker.go:13-15 | `MonitorRepositoryCommitConfig.ID()`, which `Models.ConfigId` applies to a config. The job ID has the repo name, then `/`, then the owner name; its length is the sum plus one. |
| Models.JobKeyInjective | models/cron_tracker.go:13-15 | When both repo names are free of `/`, equal IDs imply equal repo and owner names. |
| Models.JobKeyCollides | models/cron_tracker.go:13-15 | Repo "a/b" with owner "c" and repo "a" with owner "b/c" are different names with the same ID. |
| Repository.GetMonitorConfig | repository/sqlite/commit_monitor_config.go:97-101 | A config is returned exactly when the lookup does not fail and the name is stored, and it is the stored one. |
| Repository.SaveMonitorConfig | repository/sqlite/commit_monitor_config.go:76-95 | The insert succeeds exactly when the statement does not fail and the key is not yet stored (the table is unique on repo and owner). It then adds the config under its own key and keeps every other entry. Keying by name is preserved. |
| Repository.DeleteMonitorConfig | repository/sqlite/commit_monitor_config.go:103-108 | Deleting removes exactly that name and keeps every other entry unchanged. |
| Core.DependOnRateLimitingConstraints | core/core.go:20-37 | Continue holds exactly when there is no error. The error is exactly the lookup's error. It sleeps until the reset instant exactly when no requests remain. |
| Core.ParentShas | core/core.go:182-185 | One parent ID per upstream parent, in order, each the parent's SHA. |
| Core.ToCommit | core/core.go:168-180 | The stored commit takes its SHA, message, URL and parents from upstream. The author comes from the commit author, the date from the committer, and the owner and repo names from the filter. |
| Core.SaveInOrder | core/core.go:187-190 | Commits are saved in order up to the first failing save. The rows grow by exactly that prefix. The error is absent exactly when all were saved, and otherwise it is the failing save's error. |
| Core.FirstOptions | core/core.go:136-149 | The first request asks for page 1 with 1000 per page. Since and Until are set exactly when the filter has from and to dates, and then equal them. |
| Core.PageRequest | core/core.go:162 | The list request passes the filter's owner name as both owner and repository, with the given options. |
| Core.FetchPages | core/core.go:151-198 | Rows and requests only grow. The first new request is for the current page, and later ones differ only in page. A rate-limit lookup failure ends the run with no error and no change. A successful lookup is always followed by that page's request. An error implies a request was made. |
| Core.FetchAndSaveCommits | core/core.go:122-199 | Every request names the filter's owner as owner and repository and asks for 1000 per page with the filter's window. The first request asks for page 1. Rows only grow. A failing first rate-limit lookup returns no error and does nothing. |
| Core.ListCommits | core/core.go:65-86 | Never an error. A store error gives an empty list. An empty first answer triggers exactly one fetch and one re-query (empty list if that fails). Otherwise the store's answer is returned after one query. |
| Core.GetTopCommitAuthors | core/core.go:88-98 | Always succeeds. The result is the store's list, or empty when the store fails. |
| Core.GetCommitsBySha | core/core.go:100-109 | Fails exactly when the store fails, and then with ErrCommitNotFound. Otherwise it returns the store's commit. |
| Core.GetLastCommit | core/core.go:111-120 | Fails exactly when the store fails, and then with ErrCommitNotFound. Otherwise it returns the store's commit. |
| CoreProperties.ToCommitsAppend | core/core.go:168-185 | Mapping upstream commits distributes over concatenation. |
| CoreProperties.SaveInOrderAppend | core/core.go:187-190 | Saving `a + b` is saving `a` and then, only if that succeeded, saving `b` from the resulting rows. |
| CoreProperties.FetchIsWalkThenSave | core/core.go:151-198 | The interleaved fetch equals the reference run: walk the whole page chain, then save its commits in order. The error is the first save error, or else the chain's list error. |
| CoreProperties.MirrorSavesChainPrefix | core/core.go:122-199 | A mirror run saves a prefix of the chain's commits, and every save before the cut succeeded. A cut before the end is the failing save's error. A complete run's error is the chain's list error. |
| CoreProperties.ChainErrorIsListError | core/core.go:151-166 | Any error the page chain ends with comes from a list call made after a successful rate-limit lookup, never from the lookup. |
| CoreProperties.FetchMakesChainRequests | core/core.go:151-198 | With a store that accepts every save, the fetch makes exactly the reference chain's requests. Every page whose rate-limit lookup succeeds is listed, so `!ok` never ends the loop. |
| CoreProperties.WarmUpSavesChainPrefix | core/core.go:72-83 | ListCommits' warm-up leaves the old rows followed by a prefix of the chain's mapped commits, each carrying the filter's names. Without a warm-up the rows are unchanged. |
| CoreProperties.MirroredCommitsAreFound | core/core.go:100-109 | Over a store whose SHA lookup finds saved rows, every commit a mirror run saves is found by GetCommitsBySha under the filter's names and its SHA. |
| CoreProperties.CommitsCarryFilterNames | core/core.go:177-178 | Every row a mirror run adds carries the filter's owner and repo names. |
| JobTracker.JobId | scheduler/job_tracker.go:64-66 | A job's ID is its config's repo name, a `/`, then its owner name. |
| JobTracker.TaskFilters | scheduler/job_tracker.go:28-57 | The filter names the config's repository with limit and page 0. With the date range, each bound is set exactly when the config's date is non-empty and parses, and is then that parsed date. Without it, the window runs from the last commit's day to today, or is unbounded when no last commit is found. |
| JobTracker.TaskWindow | scheduler/job_tracker.go:48-57 | Without the date range, the window is unset when the store has no last commit for the repository. Otherwise it runs from the parsed day of that commit to the parsed today. With the date range, each bound is set exactly when the config's date is non-empty and parses, and is then that parsed date. |
| JobTracker.TaskRequestsCarryWindow | scheduler/job_tracker.go:28-59 | Every list request a task run makes names the config's owner twice and carries the task's window. Without the date range, Since and Until are unset when the store has no last commit, and otherwise the parsed day of that commit and of today. With it, each is set exactly when the config's date is non-empty and parses, and is then that parsed date. |
| JobTracker.RunTask | scheduler/job_tracker.go:21-60 | A task run only appends rows, and every appended row belongs to the job's repository. |
| JobTracker.WrapInt64 | scheduler/job_tracker.go:118 | The result is the int64 value congruent to the input modulo 2^64: it is in the int64 range, differs from the input by a multiple of 2^64, and equals the input when the input is already in range. |
| JobTracker.TickPeriod | scheduler/job_tracker.go:118 | The period is an int64 congruent modulo 2^64 to the hour count times an hour in nanoseconds. From 1 to 2562047 hours it is exactly that product and positive. From -2562047 to 0 hours it is not positive. |
| JobTracker.NegativeHoursWrapPositive | scheduler/job_tracker.go:118 | At -2562048 hours the product wraps: the period is the exact product plus 2^64, which is positive. |
| JobTracker.EmptyRegistry | scheduler/scheduler.go:34-37 | The new tracker has no jobs, no stop channels and no running poller, and it is well-formed. |
| JobTracker.AddJob | scheduler/job_tracker.go:74-88 | A known ID leaves the tracker unchanged. Otherwise the job and a new open stop channel are recorded under its ID. Well-formedness is preserved. |
| JobTracker.AddJobKeys | scheduler/job_tracker.go:74-88 | After adding, the job keys are the old keys plus the job's ID. |
| JobTracker.RemoveJob | scheduler/job_tracker.go:90-101 | The ID leaves both maps and its channel is closed, so its poller stops. No other channel changes, and an unknown ID is a no-op. Well-formedness is preserved. |
| Scheduler.NewScheduler | scheduler/scheduler.go:29-39 | The scheduler starts over the given stores with an empty, well-formed tracker and no poller running. |
| Scheduler.StartMirroringRepoCommits | scheduler/scheduler.go:41-72 | A failed delete changes nothing and returns the stop error. A failed save returns the start error after any removal. The insert also fails, changing nothing, when the lookup failed over a stored key. Success stores the payload and publishes one created event. Its registry is the old one with the replaced config's job removed, which closes that poller's channel, and then the payload's job added. An error adds no job and publishes nothing. Tracker well-formedness is preserved. |
| Scheduler.StopMirroringRepoCommits | scheduler/scheduler.go:74-95 | No config found returns nil and changes nothing. A failed delete returns the stop error and changes nothing. Otherwise the config and its job are removed and one deleted event carries the deleted config. |
| Scheduler.ListedIdsExtend | scheduler/scheduler.go:111-119 | Each listed config adds exactly its ID to the set of listed IDs. |
| Scheduler.ListedIdsAreStoreIds | scheduler/scheduler.go:105-111 | A listing holding exactly the store's configs lists exactly the store's IDs. |
| Scheduler.BootIsConsistent | scheduler/scheduler.go:104-122 | A tracker holding exactly the listed IDs of a full listing is consistent with the config store. |
| Scheduler.AddListedJobs | scheduler/scheduler.go:111-119 | After the loop, the tracker holds the old IDs plus every listed config's ID. The catch-up jobs are the listed configs in order, and well-formedness is preserved. |
| Scheduler.LoadExistingConfig | scheduler/scheduler.go:104-122 | A failed listing changes nothing. Otherwise every listed config's job is tracked and its catch-up job recorded. Booting an empty tracker from the full store gives a consistent scheduler. |
| SchedulerProperties.IdsAfterSave | scheduler/scheduler.go:59 | Saving a config adds exactly its ID to the store's IDs. |
| SchedulerProperties.IdsAfterDelete | scheduler/scheduler.go:51-56 | With slash-free repo names, deleting a config removes exactly its ID from the store's IDs. |
| SchedulerProperties.DeleteKeepsConsistency | scheduler/scheduler.go:81-87 | Deleting a stored config and removing its job keeps the tracker's IDs equal to the store's IDs. |
| SchedulerProperties.StartAfterDeleteKeepsConsistency | scheduler/scheduler.go:49-72 | Replacing an existing config keeps the tracker's IDs equal to the store's IDs, whether the save succeeds or not. |
| SchedulerProperties.StartWithoutDeleteKeepsConsistency | scheduler/scheduler.go:59-72 | Starting a new config with a successful save keeps the tracker's IDs equal to the store's IDs. |
| SchedulerProperties.StartKeepsConsistency | scheduler/scheduler.go:41-72 | With a slash-free repo name, Start keeps the tracker and the store consistent under every failure pattern. |
| SchedulerProperties.StopKeepsConsistency | scheduler/scheduler.go:74-95 | Stop keeps the tracker and the store consistent under every failure pattern. |
| SchedulerProperties.RunKeepsConsistency | scheduler/scheduler.go:41-95 | Any sequence of Starts with slash-free repo names and any Stops keeps the tracker and the store consistent. |
| SchedulerProperties.SharedIdOrphansConfig | models/cron_tracker.go:13-15 | Two names sharing one ID: after Start a, Start b and Stop a, config b is still stored but no job runs under its ID. |
| SchedulerProperties.LookupFailureRejectsRestart | scheduler/scheduler.go:49-62 | When the lookup fails over a stored key, Start skips the delete and the insert fails. It returns the start error and changes nothing. |
| SchedulerProperties.StartReplacesOnlyItsJob | scheduler/job_tracker.go:74-101 | A successful Start keeps every job outside the payload's and the replaced config's IDs, and keeps their pollers running. It stops the replaced job's poller. |
| SchedulerProperties.StartInstallsPayloadJob | scheduler/scheduler.go:49-65 | On a consistent scheduler with a slash-free repo name, a successful Start leaves exactly the payload's job under its ID. |

## Left out

- Concurrency is not modelled: the goroutine per job, the tracker's mutex, the ticker firing over time, and the WaitGroup of loadExistingConfig. Operations are modelled as atomic steps in call order.
- Scheduler.LoadExistingConfig: the catch-up tasks run concurrently in the source. The model returns them as the list of jobs whose task runs with `withDateRange` false. `JobTracker.RunTask` states what each run does.
- Core.DependOnRateLimitingConstraints: the length of `time.Sleep` is not modelled. Only the reset instant slept until is recorded.
- Core.FetchAndSaveCommits: the model requires the page chain to end within a given bound, through a failed rate-limit lookup, a failed list call or a NextPage of 0. It says nothing about an endless chain. The source loops forever on such a chain, unless a save fails and it returns that error.
- JobTracker.TickPeriod: `time.NewTicker` panics for a non-positive period. The model computes the period and proves when it is positive, but does not model the panic.
- updateJob (scheduler/job_tracker.go:103-114) is not modelled. It locks the mutex that removeJob and addJob lock again, so it deadlocks whenever the job exists; nothing calls it.
- The SQLite stores are replaced by abstract stores. The config insert statement names five columns, ends the column list with a comma and has four placeholders. Every save may therefore fail, and the model covers that through `ConfigAnswers.saveFails`. The unique key on (repo, owner) is modelled. SQL filtering, ordering and paging are not modelled.
- The commit store's rows are a log of successful saves. Upsert or duplicate-key behaviour is left to the abstract store's query functions.
- The go-github client types are flattened to the fields the core reads. Their nil-safe getters are not modelled.
- `models.ParseDate` and `time.Format(time.DateOnly)` are parameters of a task, not modelled definitions.
- The JSON encoding of event payloads is not modelled, nor is whether publishing succeeds. The source discards publish errors, so an event is the topic and the config value.
- Logging is not modelled.
- The event subscriber wiring (events/events.go), the HTTP and gRPC servers (server/), configuration loading, main.go and _labs/ are outside the core.
- server/api.go builds the payload without `DurationInHours` (server/api.go:20-25) and never sets the scheduler in `NewApiService` (server/api.go:120-125). That request path therefore dereferences a nil scheduler before any store call. A config with `DurationInHours` 0 would get period 0. The model takes the config as given.

=== FILE: core.dfy ===
/** The mirror pipeline and query policy of core/core.go.

    The GitHub client and the commit store are the abstract values of modules
    GitHub and Repository; the commit store's state is threaded through as the
    sequence `rows` of commits saved so far. */
module Core {
  import opened Wrappers
  import opened Errors
  import opened Models
  import opened Repository
  import opened GitHub

  /** The first page FetchAndSaveCommits requests, and the page size it asks for. */
  const FirstPage: int := 1
  const PerPage: int := 1000

  /** What dependOnRateLimitingConstraints returns, together with the reset
      instant it sleeps until when the quota is exhausted. */
  datatype RateCheck = RateCheck(shouldContinue: bool, err: Option<Error>, sleepUntil: Option<Instant>)

  /** A lookup error yields `(false, err)`; every other outcome yields `(true, nil)`,
      so the caller's `!ok` branch is never taken. */
  function DependOnRateLimitingConstraints(client: Client, page: int): (r: RateCheck)
    ensures r.shouldContinue <==> r.err.None?
    ensures r.err.Some? <==> client.rateLimit(page).Failure?
    ensures r.err.Some? ==> r.err.value == client.rateLimit(page).error
    ensures r.sleepUntil.Some? <==> client.rateLimit(page).Success? && client.rateLimit(page).value.remaining == 0
    ensures r.sleepUntil.Some? ==> r.sleepUntil.value == client.rateLimit(page).value.reset
  {
    match client.rateLimit(page)
    case Failure(e) => RateCheck(false, Some(e), None)
    case Success(rate) =>
      if rate.remaining == 0 then RateCheck(true, None, Some(rate.reset))
      else RateCheck(true, None, None)
  }

  /** The parents' SHAs, appended one by one in upstream order. */
  function ParentShas(parents: seq<ParentRef>): (shas: seq<string>)
    ensures |shas| == |parents|
    ensures forall i | 0 <= i < |parents| :: shas[i] == parents[i].sha
  {
    if |parents| == 0 then []
    else ParentShas(parents[..|parents| - 1]) + [parents[|parents| - 1].sha]
  }

  /** The stored form of a listed commit: the author comes from the commit's
      author, the date from its committer, and the names from the filter. */
  function ToCommit(g: RepositoryCommit, filters: CommitFilters): (c: Commit)
    ensures c.sha == g.sha && c.message == g.commit.message && c.url == g.htmlUrl
    ensures c.author == g.commit.author.name && c.date == g.commit.committer.date
    ensures c.ownerName == filters.name.ownerName && c.repoName == filters.name.repoName
    ensures |c.parentCommitIds| == |g.parents|
    ensures forall i | 0 <= i < |g.parents| :: c.parentCommitIds[i] == g.parents[i].sha
  {
    Commit(
      g.commit.committer.date,
      g.commit.message,
      g.commit.author.name,
      filters.name.repoName,
      filters.name.ownerName,
      g.htmlUrl,
      g.sha,
      ParentShas(g.parents))
  }

  function ToCommits(gs: seq<RepositoryCommit>, filters: CommitFilters): seq<Commit> {
    seq(|gs|, i requires 0 <= i < |gs| => ToCommit(gs[i], filters))
  }

  /** The result of saving a sequence of commits one after the other. */
  datatype SaveRun = SaveRun(err: Option<Error>, rows: seq<Commit>)

  /** Saves `commits` in order and stops at the first save error: the commits
      before it are stored, it and every later one are not. */
  function SaveInOrder(store: DataStore, rows: seq<Commit>, commits: seq<Commit>): (r: SaveRun)
    ensures |rows| <= |r.rows| <= |rows| + |commits|
    ensures r.rows == rows + commits[..|r.rows| - |rows|]
    ensures forall j | 0 <= j < |r.rows| - |rows| :: store.saveCommit(rows + commits[..j], commits[j]).None?
    ensures r.err.None? <==> |r.rows| == |rows| + |commits|
    ensures r.err.Some? ==> r.err == store.saveCommit(r.rows, commits[|r.rows| - |rows|])
    decreases |commits|
  {
    if |commits| == 0 then SaveRun(None, rows)
    else match store.saveCommit(rows, commits[0])
      case Some(e) => SaveRun(Some(e), rows)
      case None =>
        var rest := SaveInOrder(store, rows + [commits[0]], commits[1..]);
        assert forall j | 0 <= j < |rest.rows| - |rows| ::
                 store.saveCommit(rows + commits[..j], commits[j]).None? by {
          assert rows + commits[..0] == rows;
          forall j | 1 <= j < |rest.rows| - |rows|
            ensures store.saveCommit(rows + commits[..j], commits[j]).None?
          {
            assert (rows + [commits[0]]) + commits[1..][..j - 1] == rows + commits[..j];
            assert commits[1..][j - 1] == commits[j];
          }
        }
        rest
  }

  /** The list call for one page. The filter's owner name is passed as both the
      owner and the repository. */
  function PageRequest(filters: CommitFilters, options: ListOptions): (r: ListRequest)
    ensures r.owner == filters.name.ownerName && r.repo == filters.name.ownerName
    ensures r.options == options
  {
    ListRequest(filters.name.ownerName, filters.name.ownerName, options)
  }

  function DateTime(d: Option<Date>): Option<Instant> {
    if d.Some? then Some(d.value.time) else None
  }

  /** The options of the first request: page 1 of 1000, Since and Until set
      only from dates the filter has. */
  function FirstOptions(filters: CommitFilters): (o: ListOptions)
    ensures o.page == 1 && o.perPage == 1000
    ensures o.since.Some? <==> filters.fromDate.Some?
    ensures o.until.Some? <==> filters.toDate.Some?
    ensures filters.fromDate.Some? ==> o.since.value == filters.fromDate.value.time
    ensures filters.toDate.Some? ==> o.until.value == filters.toDate.value.time
  {
    ListOptions(DateTime(filters.fromDate), DateTime(filters.toDate), FirstPage, PerPage)
  }

  /** The page chain from `options` ends within `bound` pages: a rate-limit
      lookup error, a list error or a NextPage of 0 is reached. The source
      loops forever otherwise. */
  predicate PagesEnd(client: Client, filters: CommitFilters, options: ListOptions, bound: nat)
    decreases bound
  {
    var req := PageRequest(filters, options);
    && bound > 0
    && (|| client.rateLimit(options.page).Failure?
        || client.listCommits(req).Failure?
        || client.listCommits(req).value.nextPage == 0
        || PagesEnd(client, filters, options.(page := client.listCommits(req).value.nextPage), bound - 1))
  }

  /** What one FetchAndSaveCommits run returns and leaves behind: its error,
      the commit store's rows, and every list request it made. */
  datatype Fetch = Fetch(err: Option<Error>, rows: seq<Commit>, requests: seq<ListRequest>)

  /** The `run:` loop of FetchAndSaveCommits, from the page in `options`. */
  function FetchPages(
    client: Client, store: DataStore, filters: CommitFilters, options: ListOptions,
    rows: seq<Commit>, requests: seq<ListRequest>, bound: nat): (r: Fetch)
    requires PagesEnd(client, filters, options, bound)
    ensures |rows| <= |r.rows| && r.rows[..|rows|] == rows
    ensures |requests| <= |r.requests| && r.requests[..|requests|] == requests
    ensures |r.requests| > |requests| ==> r.requests[|requests|] == PageRequest(filters, options)
    ensures forall i | |requests| <= i < |r.requests| ::
              r.requests[i] == PageRequest(filters, options.(page := r.requests[i].options.page))
    ensures client.rateLimit(options.page).Failure? ==> r == Fetch(None, rows, requests)
    ensures client.rateLimit(options.page).Success? ==> |r.requests| > |requests|
    ensures r.err.Some? ==> |r.requests| > |requests|
    decreases bound
  {
    var check := DependOnRateLimitingConstraints(client, options.page);
    if check.err.Some? then
      Fetch(None, rows, requests)
    else if !check.shouldContinue then
      Fetch(None, rows, requests)
    else
      var req := PageRequest(filters, options);
      match client.listCommits(req)
      case Failure(e) => Fetch(Some(e), rows, requests + [req])
      case Success(page) =>
        var saved := SaveInOrder(store, rows, ToCommits(page.commits, filters));
        if saved.err.Some? then
          Fetch(saved.err, saved.rows, requests + [req])
        else if page.nextPage != 0 then
          FetchPages(client, store, filters, options.(page := page.nextPage), saved.rows, requests + [req], bound - 1)
        else
          Fetch(None, saved.rows, requests + [req])
  }

  /** FetchAndSaveCommits. Every request names the filter's owner as owner and
      repository, asks for 1000 commits per page and carries the filter's window. */
  function FetchAndSaveCommits(
    client: Client, store: DataStore, rows: seq<Commit>, filters: CommitFilters, bound: nat): (r: Fetch)
    requires PagesEnd(client, filters, FirstOptions(filters), bound)
    ensures |r.requests| > 0 ==>
              (r.requests[0] == ListRequest(filters.name.ownerName, filters.name.ownerName,
                 ListOptions(DateTime(filters.fromDate), DateTime(filters.toDate), 1, 1000)))
    ensures forall i | 0 <= i < |r.requests| ::
              && r.requests[i].owner == filters.name.ownerName
              && r.requests[i].repo == filters.name.ownerName
              && r.requests[i].options.perPage == 1000
              && r.requests[i].options.since == DateTime(filters.fromDate)
              && r.requests[i].options.until == DateTime(filters.toDate)
    ensures |rows| <= |r.rows| && r.rows[..|rows|] == rows
    ensures client.rateLimit(1).Failure? ==> r == Fetch(None, rows, [])
    ensures r.err.Some? ==> |r.requests| > 0
  {
    var r := FetchPages(client, store, filters, FirstOptions(filters), rows, [], bound);
    assert forall i | 0 <= i < |r.requests| ::
      r.requests[i] == PageRequest(filters, FirstOptions(filters).(page := r.requests[i].options.page));
    r
  }

  /** The commit list ListCommits returns, the rows it leaves behind, how many
      warm-up fetches it ran and how many store queries it made. */
  datatype Listing = Listing(commits: seq<Commit>, err: Option<Error>, rows: seq<Commit>, warmUps: nat, queries: nat)

  /** The first store query succeeds with an empty list. */
  predicate NeedsWarmUp(store: DataStore, rows: seq<Commit>, filters: CommitFilters) {
    store.listCommits(rows, filters).Success? && |store.listCommits(rows, filters).value| == 0
  }

  /** ListCommits: never an error; a store error gives an empty list; an empty
      first answer triggers one fetch, whose error is dropped, and one re-query. */
  function ListCommits(
    client: Client, store: DataStore, rows: seq<Commit>, filters: CommitFilters, bound: nat): (r: Listing)
    requires NeedsWarmUp(store, rows, filters) ==> PagesEnd(client, filters, FirstOptions(filters), bound)
    ensures r.err.None?
    ensures r.warmUps <= 1 && r.queries == 1 + r.warmUps
    ensures r.warmUps == 1 <==> NeedsWarmUp(store, rows, filters)
    ensures r.warmUps == 0 ==> r.rows == rows
    ensures store.listCommits(rows, filters).Failure? ==> r.commits == []
    ensures store.listCommits(rows, filters).Success? && !NeedsWarmUp(store, rows, filters) ==>
              r.commits == store.listCommits(rows, filters).value
    ensures NeedsWarmUp(store, rows, filters) ==>
              && r.rows == FetchAndSaveCommits(client, store, rows, filters, bound).rows
              && r.commits == (match store.listCommits(r.rows, filters)
                               case Success(cs) => cs
                               case Failure(_) => [])
  {
    match store.listCommits(rows, filters)
    case Failure(_) => Listing([], None, rows, 0, 1)
    case Success(commits) =>
      if |commits| == 0 then
        var fetched := FetchAndSaveCommits(client, store, rows, filters, bound);
        match store.listCommits(fetched.rows, filters)
        case Failure(_) => Listing([], None, fetched.rows, 1, 2)
        case Success(again) => Listing(again, None, fetched.rows, 1, 2)
      else
        Listing(commits, None, rows, 0, 1)
  }

  /** GetTopCommitAuthors: a store error becomes an empty list, never an error. */
  function GetTopCommitAuthors(store: DataStore, rows: seq<Commit>, filters: CommitFilters): (r: Result<seq<TopCommitAuthor>, Error>)
    ensures r.Success?
    ensures store.getTopCommitAuthors(rows, filters).Success? ==> r.value == store.getTopCommitAuthors(rows, filters).value
    ensures store.getTopCommitAuthors(rows, filters).Failure? ==> r.value == []
  {
    match store.getTopCommitAuthors(rows, filters)
    case Failure(_) => Success([])
    case Success(list) => Success(list)
  }

  /** GetCommitsBySha: any store error becomes ErrCommitNotFound. */
  function GetCommitsBySha(store: DataStore, rows: seq<Commit>, name: OwnerAndRepoName, sha: string): (r: Result<Commit, Error>)
    ensures r.Failure? <==> store.getCommitBySha(rows, name, sha).Failure?
    ensures r.Failure? ==> r.error == CommitNotFound
    ensures r.Success? ==> r.value == store.getCommitBySha(rows, name, sha).value
  {
    match store.getCommitBySha(rows, name, sha)
    case Failure(_) => Failure(CommitNotFound)
    case Success(c) => Success(c)
  }

  /** GetLastCommit: any store error becomes ErrCommitNotFound. */
  function GetLastCommit(store: DataStore, rows: seq<Commit>, name: OwnerAndRepoName): (r: Result<Commit, Error>)
    ensures r.Failure? <==> store.getLastCommit(rows, name).Failure?
    ensures r.Failure? ==> r.error == CommitNotFound
    ensures r.Success? ==> r.value == store.getLastCommit(rows, name).value
  {
    match store.getLastCommit(rows, name)
    case Failure(_) => Failure(CommitNotFound)
    case Success(c) => Success(c)
  }
}

=== FILE: core_properties.dfy ===
/** Properties of the mirror pipeline, stated against an independent reference:
    first walk the upstream page chain without touching the store, then save
    everything it listed in order. */
module CoreProperties {
  import opened Wrappers
  import opened Errors
  import opened Models
  import opened Repository
  import opened GitHub
  import opened Core

  /** Every upstream commit on the page chain from `options`, page after page,
      each page in upstream order. */
  function ChainCommits(client: Client, filters: CommitFilters, options: ListOptions, bound: nat): seq<RepositoryCommit>
    requires PagesEnd(client, filters, options, bound)
    decreases bound
  {
    if client.rateLimit(options.page).Failure? then []
    else match client.listCommits(PageRequest(filters, options))
      case Failure(_) => []
      case Success(page) =>
        if page.nextPage != 0 then page.commits + ChainCommits(client, filters, options.(page := page.nextPage), bound - 1)
        else page.commits
  }

  /** How the chain ends: the list error that stops it, or None when it stops at
      a failed rate-limit lookup or at NextPage 0. */
  function ChainError(client: Client, filters: CommitFilters, options: ListOptions, bound: nat): Option<Error>
    requires PagesEnd(client, filters, options, bound)
    decreases bound
  {
    if client.rateLimit(options.page).Failure? then None
    else match client.listCommits(PageRequest(filters, options))
      case Failure(e) => Some(e)
      case Success(page) =>
        if page.nextPage != 0 then ChainError(client, filters, options.(page := page.nextPage), bound - 1)
        else None
  }

  /** Every list request the page chain from `options` makes: one per page
      whose rate-limit lookup succeeds, until a lookup or a list call fails or
      NextPage is 0. A successful lookup is always followed by its request. */
  function ChainRequests(client: Client, filters: CommitFilters, options: ListOptions, bound: nat): seq<ListRequest>
    requires PagesEnd(client, filters, options, bound)
    decreases bound
  {
    if client.rateLimit(options.page).Failure? then []
    else
      var req := PageRequest(filters, options);
      match client.listCommits(req)
      case Failure(_) => [req]
      case Success(page) =>
        if page.nextPage != 0 then [req] + ChainRequests(client, filters, options.(page := page.nextPage), bound - 1)
        else [req]
  }

  lemma ToCommitsAppend(a: seq<RepositoryCommit>, b: seq<RepositoryCommit>, filters: CommitFilters)
    ensures ToCommits(a + b, filters) == ToCommits(a, filters) + ToCommits(b, filters)
  {
    assert forall i | 0 <= i < |a + b| :: ToCommits(a + b, filters)[i] == (ToCommits(a, filters) + ToCommits(b, filters))[i];
  }

  /** Saving `a + b` is saving `a`, then, unless that failed, saving `b`. */
  lemma {:induction false} SaveInOrderAppend(store: DataStore, rows: seq<Commit>, a: seq<Commit>, b: seq<Commit>)
    ensures SaveInOrder(store, rows, a + b) ==
              (var s := SaveInOrder(store, rows, a); if s.err.Some? then s else SaveInOrder(store, s.rows, b))
    decreases |a|
  {
    if |a| == 0 {
      assert a + b == b;
    } else {
      assert (a + b)[0] == a[0];
      assert (a + b)[1..] == a[1..] + b;
      if store.saveCommit(rows, a[0]).None? {
        SaveInOrderAppend(store, rows + [a[0]], a[1..], b);
      }
    }
  }

  /** The fetch loop interleaves listing and saving, yet it leaves the store
      exactly as the walk-then-save reference does, and returns the first save
      error or else the error that ended the chain. */
  lemma {:induction false} FetchIsWalkThenSave(
    client: Client, store: DataStore, filters: CommitFilters, options: ListOptions,
    rows: seq<Commit>, requests: seq<ListRequest>, bound: nat)
    requires PagesEnd(client, filters, options, bound)
    ensures var r := FetchPages(client, store, filters, options, rows, requests, bound);
            var s := SaveInOrder(store, rows, ToCommits(ChainCommits(client, filters, options, bound), filters));
            && r.rows == s.rows
            && r.err == (if s.err.Some? then s.err else ChainError(client, filters, options, bound))
    decreases bound
  {
    if client.rateLimit(options.page).Success? {
      match client.listCommits(PageRequest(filters, options)) {
        case Failure(_) =>
        case Success(page) =>
          if page.nextPage != 0 {
            var next := options.(page := page.nextPage);
            var rest := ChainCommits(client, filters, next, bound - 1);
            var first := ToCommits(page.commits, filters);
            ToCommitsAppend(page.commits, rest, filters);
            SaveInOrderAppend(store, rows, first, ToCommits(rest, filters));
            var saved := SaveInOrder(store, rows, first);
            if saved.err.None? {
              FetchIsWalkThenSave(client, store, filters, next, saved.rows, requests + [PageRequest(filters, options)], bound - 1);
            }
          }
      }
    }
  }

  /** A commit store that accepts every save. */
  ghost predicate AcceptsEverySave(store: DataStore) {
    forall rs: seq<Commit>, c: Commit :: store.saveCommit(rs, c).None?
  }

  /** With a store that accepts every save, the fetch makes exactly the
      chain's requests: it never stops after a successful rate-limit lookup
      without listing that page, so dependOnRateLimitingConstraints never ends
      the loop through `!ok`. */
  lemma {:induction false} FetchMakesChainRequests(
    client: Client, store: DataStore, filters: CommitFilters, options: ListOptions,
    rows: seq<Commit>, requests: seq<ListRequest>, bound: nat)
    requires PagesEnd(client, filters, options, bound)
    requires AcceptsEverySave(store)
    ensures FetchPages(client, store, filters, options, rows, requests, bound).requests
            == requests + ChainRequests(client, filters, options, bound)
    decreases bound
  {
    var req := PageRequest(filters, options);
    if client.rateLimit(options.page).Success? && client.listCommits(req).Success?
       && client.listCommits(req).value.nextPage != 0 {
      var page := client.listCommits(req).value;
      var next := options.(page := page.nextPage);
      var saved := SaveInOrder(store, rows, ToCommits(page.commits, filters));
      assert saved.err.None?;
      FetchMakesChainRequests(client, store, filters, next, saved.rows, requests + [req], bound - 1);
      assert requests + [req] + ChainRequests(client, filters, next, bound - 1)
          == requests + ([req] + ChainRequests(client, filters, next, bound - 1));
    }
  }

  /** FetchAndSaveCommits stores a prefix of the chain's commits, in page order
      and in upstream order within a page, each mapped by ToCommit. It stops at
      the first failed save and returns that error, saving nothing after it;
      when every save succeeds it stores all of them and returns the list error
      that ended the chain, or nil. */
  lemma MirrorSavesChainPrefix(client: Client, store: DataStore, rows: seq<Commit>, filters: CommitFilters, bound: nat)
    requires PagesEnd(client, filters, FirstOptions(filters), bound)
    ensures var r := FetchAndSaveCommits(client, store, rows, filters, bound);
            var cs := ToCommits(ChainCommits(client, filters, FirstOptions(filters), bound), filters);
            var k := |r.rows| - |rows|;
            && 0 <= k <= |cs|
            && r.rows == rows + cs[..k]
            && (forall j | 0 <= j < k :: store.saveCommit(rows + cs[..j], cs[j]).None?)
            && (k < |cs| ==> r.err.Some? && r.err == store.saveCommit(r.rows, cs[k]))
            && (k == |cs| ==> r.err == ChainError(client, filters, FirstOptions(filters), bound))
  {
    FetchIsWalkThenSave(client, store, filters, FirstOptions(filters), rows, [], bound);
    var saved := SaveInOrder(store, rows, ToCommits(ChainCommits(client, filters, FirstOptions(filters), bound), filters));
    assert FetchAndSaveCommits(client, store, rows, filters, bound).rows == saved.rows;
  }

  /** A run that ends with an error ended on a list error or a save error;
      a failed rate-limit lookup is never returned. */
  lemma {:induction false} ChainErrorIsListError(client: Client, filters: CommitFilters, options: ListOptions, bound: nat)
    requires PagesEnd(client, filters, options, bound)
    ensures ChainError(client, filters, options, bound).Some? ==>
              exists p :: client.rateLimit(p).Success?
                && client.listCommits(PageRequest(filters, options.(page := p))).Failure?
                && ChainError(client, filters, options, bound).value ==
                     client.listCommits(PageRequest(filters, options.(page := p))).error
    decreases bound
  {
    if client.rateLimit(options.page).Success? {
      match client.listCommits(PageRequest(filters, options)) {
        case Failure(_) =>
          assert options.(page := options.page) == options;
        case Success(page) =>
          if page.nextPage != 0 {
            var next := options.(page := page.nextPage);
            ChainErrorIsListError(client, filters, next, bound - 1);
            assert forall p :: next.(page := p) == options.(page := p);
          }
      }
    }
  }

  /** Every commit a fetch saves carries the filter's owner and repository
      names, whatever names the list requests used. */
  lemma CommitsCarryFilterNames(client: Client, store: DataStore, rows: seq<Commit>, filters: CommitFilters, bound: nat)
    requires PagesEnd(client, filters, FirstOptions(filters), bound)
    ensures var r := FetchAndSaveCommits(client, store, rows, filters, bound);
            forall i | |rows| <= i < |r.rows| ::
              r.rows[i].ownerName == filters.name.ownerName && r.rows[i].repoName == filters.name.repoName
  {
    MirrorSavesChainPrefix(client, store, rows, filters, bound);
  }

  /** ListCommits' warm-up: after an empty first answer, the rows it leaves
      are the old rows followed by a prefix of the chain's commits, each
      carrying the filter's names; without a warm-up nothing is saved. */
  lemma WarmUpSavesChainPrefix(client: Client, store: DataStore, rows: seq<Commit>, filters: CommitFilters, bound: nat)
    requires PagesEnd(client, filters, FirstOptions(filters), bound)
    ensures var l := ListCommits(client, store, rows, filters, bound);
            var cs := ToCommits(ChainCommits(client, filters, FirstOptions(filters), bound), filters);
            && |rows| <= |l.rows| <= |rows| + |cs|
            && l.rows == rows + cs[..|l.rows| - |rows|]
            && (l.warmUps == 0 ==> l.rows == rows)
            && (forall i | |rows| <= i < |l.rows| ::
                  l.rows[i].ownerName == filters.name.ownerName && l.rows[i].repoName == filters.name.repoName)
  {
    MirrorSavesChainPrefix(client, store, rows, filters, bound);
    CommitsCarryFilterNames(client, store, rows, filters, bound);
    assert rows + ToCommits(ChainCommits(client, filters, FirstOptions(filters), bound), filters)[..0] == rows;
  }

  /** A commit store whose SHA lookup finds every saved row under its own
      names. */
  ghost predicate FindsSavedCommits(store: DataStore) {
    forall rows: seq<Commit>, i: int | 0 <= i < |rows| ::
      && store.getCommitBySha(rows, OwnerAndRepoName(rows[i].ownerName, rows[i].repoName), rows[i].sha).Success?
      && store.getCommitBySha(rows, OwnerAndRepoName(rows[i].ownerName, rows[i].repoName), rows[i].sha).value.sha == rows[i].sha
  }

  /** Over such a store, every commit a mirror run saves can then be looked
      up by GetCommitsBySha under the filter's names and its SHA. */
  lemma MirroredCommitsAreFound(client: Client, store: DataStore, rows: seq<Commit>, filters: CommitFilters, bound: nat)
    requires PagesEnd(client, filters, FirstOptions(filters), bound)
    requires FindsSavedCommits(store)
    ensures var r := FetchAndSaveCommits(client, store, rows, filters, bound);
            forall i | |rows| <= i < |r.rows| ::
              && GetCommitsBySha(store, r.rows, filters.name, r.rows[i].sha).Success?
              && GetCommitsBySha(store, r.rows, filters.name, r.rows[i].sha).value.sha == r.rows[i].sha
  {
    var r := FetchAndSaveCommits(client, store, rows, filters, bound);
    CommitsCarryFilterNames(client, store, rows, filters, bound);
    forall i | |rows| <= i < |r.rows|
      ensures GetCommitsBySha(store, r.rows, filters.name, r.rows[i].sha).Success?
      ensures GetCommitsBySha(store, r.rows, filters.name, r.rows[i].sha).value.sha == r.rows[i].sha
    {
      assert OwnerAndRepoName(r.rows[i].ownerName, r.rows[i].repoName) == filters.name;
    }
  }
}

=== FILE: errors.dfy ===
/** The error values the core produces or passes through. */
module Errors {

  datatype Error =
    | StoreFailure(detail: string)            // any error reported by a store
    | UpstreamFailure(detail: string)         // any error reported by the GitHub client
    | CommitNotFound                          // core.ErrCommitNotFound
    | FailedToStartMonitoringRepoCommits      // scheduler.ErrFailedToStartMonitoringRepoCommits
    | FailedToStopMonitoringRepoCommits       // scheduler.ErrFailedToStopMonitoringRepoCommits
}

=== FILE: github.dfy ===
/** The parts of the GitHub client the core consumes, as plain values.

    The client itself is not part of this model: it is a record of two
    functions, one per call the core makes. */
module GitHub {
  import opened Wrappers
  import opened Errors
  import opened Models

  /** github.CommitAuthor: a name and a date. */
  datatype Signature = Signature(name: string, date: Instant)

  /** github.Commit: the git-level part of a listed commit. */
  datatype CommitDetail = CommitDetail(message: string, author: Signature, committer: Signature)

  /** A parent reference of a listed commit. */
  datatype ParentRef = ParentRef(sha: string)

  /** github.RepositoryCommit: one element of a commit-list page. */
  datatype RepositoryCommit = RepositoryCommit(
    sha: string,
    htmlUrl: string,
    commit: CommitDetail,
    parents: seq<ParentRef>)

  /** github.CommitsListOptions; `None` is the zero time.Time, which is not sent. */
  datatype ListOptions = ListOptions(since: Option<Instant>, until: Option<Instant>, page: int, perPage: int)

  /** The arguments of one Repositories.ListCommits call. */
  datatype ListRequest = ListRequest(owner: string, repo: string, options: ListOptions)

  /** The core quota of RateLimit.Get. */
  datatype Rate = Rate(remaining: int, reset: Instant)

  /** A page of commits and the response's NextPage (0 on the last page). */
  datatype Page = Page(commits: seq<RepositoryCommit>, nextPage: int)

  /** The upstream. `rateLimit(p)` answers the quota lookup made just before
      page `p` is requested; `listCommits` answers one list call. */
  datatype Client = Client(
    rateLimit: int -> Result<Rate, Error>,
    listCommits: ListRequest -> Result<Page, Error>)
}

=== FILE: job_tracker.dfy ===
/** The job registry of scheduler/job_tracker.go.

    A job's poller goroutine is represented by its stop channel: channels are
    numbered in creation order, and closing one stops the poller that waits on
    it. The registry keeps the two maps of the source plus the log of every
    channel made so far, open or closed. */
module JobTracker {
  import opened Wrappers
  import opened Errors
  import opened Models
  import opened Repository
  import opened GitHub
  import opened Core
  import opened CoreProperties

  /** A job: its config; its task is TaskFilters followed by FetchAndSaveCommits. */
  datatype Job = Job(config: MonitorConfig)

  /** Job.ID(): the key of the job's config, laid out as its repo name, a
      '/' and its owner name. */
  function JobId(job: Job): (id: string)
    ensures |id| == |job.config.repoName| + 1 + |job.config.ownerName|
    ensures id[..|job.config.repoName|] == job.config.repoName && id[|job.config.repoName|] == '/'
    ensures id[|job.config.repoName| + 1..] == job.config.ownerName
  {
    ConfigId(job.config)
  }

  /** The clock and date helpers a task uses: models.ParseDate, the
      `Format(time.DateOnly)` of an instant, and the current instant. */
  datatype TaskEnv = TaskEnv(parseDate: string -> Option<Date>, formatDay: Instant -> string, now: Instant)

  /** The window a job's task mirrors. With the date range, each bound is the
      config's date when it is non-empty and parses, and nil otherwise. Without
      it, the window runs from the last stored commit's day to today, or is
      unbounded when no last commit is found. Limit and page are always 0. */
  function TaskFilters(config: MonitorConfig, withDateRange: bool, lastCommit: Result<Commit, Error>, env: TaskEnv): (f: CommitFilters)
    ensures f.name == config.Name() && f.limit == 0 && f.page == 0
    ensures withDateRange ==>
              && (f.fromDate.Some? <==> config.fromDate != "" && env.parseDate(config.fromDate).Some?)
              && (f.fromDate.Some? ==> f.fromDate == env.parseDate(config.fromDate))
              && (f.toDate.Some? <==> config.toDate != "" && env.parseDate(config.toDate).Some?)
              && (f.toDate.Some? ==> f.toDate == env.parseDate(config.toDate))
    ensures !withDateRange && lastCommit.Success? ==>
              && f.fromDate == env.parseDate(env.formatDay(lastCommit.value.date))
              && f.toDate == env.parseDate(env.formatDay(env.now))
    ensures !withDateRange && lastCommit.Failure? ==> f.fromDate.None? && f.toDate.None?
  {
    var base := CommitFilters(config.Name(), 0, 0, None, None);
    if withDateRange then
      var from := if config.fromDate != "" && env.parseDate(config.fromDate).Some? then env.parseDate(config.fromDate) else None;
      var to := if config.toDate != "" && env.parseDate(config.toDate).Some? then env.parseDate(config.toDate) else None;
      base.(fromDate := from, toDate := to)
    else
      match lastCommit
      case Success(last) =>
        base.(fromDate := env.parseDate(env.formatDay(last.date)), toDate := env.parseDate(env.formatDay(env.now)))
      case Failure(_) => base
  }

  /** The window of `Task(withDateRange)`, looking the last commit up through
      the core only when there is no date range. */
  function TaskWindow(job: Job, withDateRange: bool, store: DataStore, rows: seq<Commit>, env: TaskEnv): (f: CommitFilters)
    ensures f.name == job.config.Name()
    ensures !withDateRange && store.getLastCommit(rows, job.config.Name()).Failure? ==> f.fromDate.None? && f.toDate.None?
    ensures !withDateRange && store.getLastCommit(rows, job.config.Name()).Success? ==>
              && f.fromDate == env.parseDate(env.formatDay(store.getLastCommit(rows, job.config.Name()).value.date))
              && f.toDate == env.parseDate(env.formatDay(env.now))
    ensures withDateRange ==>
              && (f.fromDate.Some? <==> job.config.fromDate != "" && env.parseDate(job.config.fromDate).Some?)
              && (f.fromDate.Some? ==> f.fromDate == env.parseDate(job.config.fromDate))
              && (f.toDate.Some? <==> job.config.toDate != "" && env.parseDate(job.config.toDate).Some?)
              && (f.toDate.Some? ==> f.toDate == env.parseDate(job.config.toDate))
  {
    var last := if withDateRange then Failure(CommitNotFound) else GetLastCommit(store, rows, job.config.Name());
    TaskFilters(job.config, withDateRange, last, env)
  }

  /** One run of a job's task: the fetch's error is dropped and the store keeps
      whatever was saved. */
  function RunTask(
    job: Job, withDateRange: bool, client: Client, store: DataStore, rows: seq<Commit>, env: TaskEnv, bound: nat): (rows': seq<Commit>)
    requires PagesEnd(client, TaskWindow(job, withDateRange, store, rows, env), FirstOptions(TaskWindow(job, withDateRange, store, rows, env)), bound)
    ensures |rows| <= |rows'| && rows'[..|rows|] == rows
    ensures forall i | |rows| <= i < |rows'| ::
              rows'[i].ownerName == job.config.ownerName && rows'[i].repoName == job.config.repoName
  {
    var filters := TaskWindow(job, withDateRange, store, rows, env);
    var r := FetchAndSaveCommits(client, store, rows, filters, bound);
    CommitsCarryFilterNames(client, store, rows, filters, bound);
    r.rows
  }

  /** Every list request a task run makes carries the task's window: without
      the date range, Since and Until are unset when the store has no last
      commit for the repository, and otherwise the parsed day of that commit
      and of today; with it, each is set exactly when the config's date is
      non-empty and parses, and is then that parsed date. Every request names the config's owner twice. */
  lemma TaskRequestsCarryWindow(
    job: Job, withDateRange: bool, client: Client, store: DataStore, rows: seq<Commit>, env: TaskEnv, bound: nat)
    requires PagesEnd(client, TaskWindow(job, withDateRange, store, rows, env), FirstOptions(TaskWindow(job, withDateRange, store, rows, env)), bound)
    ensures var r := FetchAndSaveCommits(client, store, rows, TaskWindow(job, withDateRange, store, rows, env), bound);
            var last := store.getLastCommit(rows, job.config.Name());
            forall i | 0 <= i < |r.requests| ::
              && r.requests[i].owner == job.config.ownerName && r.requests[i].repo == job.config.ownerName
              && (!withDateRange && last.Failure? ==> r.requests[i].options.since.None? && r.requests[i].options.until.None?)
              && (!withDateRange && last.Success? ==>
                    && r.requests[i].options.since == DateTime(env.parseDate(env.formatDay(last.value.date)))
                    && r.requests[i].options.until == DateTime(env.parseDate(env.formatDay(env.now))))
              && (withDateRange ==>
                    && (r.requests[i].options.since.Some? <==> job.config.fromDate != "" && env.parseDate(job.config.fromDate).Some?)
                    && (r.requests[i].options.since.Some? ==> r.requests[i].options.since == DateTime(env.parseDate(job.config.fromDate)))
                    && (r.requests[i].options.until.Some? <==> job.config.toDate != "" && env.parseDate(job.config.toDate).Some?)
                    && (r.requests[i].options.until.Some? ==> r.requests[i].options.until == DateTime(env.parseDate(job.config.toDate))))
  {
  }

  /** Nanoseconds in an hour (`60 * time.Minute`), and the int64 range. */
  const HourNanos: int := 3_600_000_000_000
  const Int64Min: int := -0x8000_0000_0000_0000
  const Int64Modulus: int := 0x1_0000_0000_0000_0000

  /** The largest hour count whose period fits in an int64. */
  const MaxHours: int := 2_562_047

  /** Two's-complement wrap-around of a Go int64 product: the int64 value
      congruent to `x` modulo 2^64. */
  function WrapInt64(x: int): (w: int)
    ensures Int64Min <= w < -Int64Min
    ensures (w - x) % Int64Modulus == 0
    ensures Int64Min <= x < -Int64Min ==> w == x
  {
    (x - Int64Min) % Int64Modulus + Int64Min
  }

  /** The ticker period of startJob, `60 * time.Minute * time.Duration(hours)`,
      in int64 nanoseconds, so congruent modulo 2^64 to the exact product. It
      is positive for 1 to MaxHours hours and not positive for -MaxHours to 0
      hours, for which time.NewTicker panics. Beyond that range the product
      wraps, and its sign no longer follows the hour count's. */
  function TickPeriod(hours: int): (d: int)
    ensures Int64Min <= d < -Int64Min
    ensures Int64Min <= hours < -Int64Min ==> (d - HourNanos * hours) % Int64Modulus == 0
    ensures 1 <= hours <= MaxHours ==> d == HourNanos * hours && d > 0
    ensures -MaxHours <= hours <= 0 ==> d <= 0
  {
    WrapInt64(HourNanos * WrapInt64(hours))
  }

  /** One hour below -MaxHours the product wraps to a positive period of
      about 292 years, so a negative hour count can start a ticker. */
  lemma NegativeHoursWrapPositive()
    ensures TickPeriod(-MaxHours - 1) > 0
    ensures TickPeriod(-MaxHours - 1) == HourNanos * (-MaxHours - 1) + Int64Modulus
  {
  }

  /** A stop channel: open, and stopping the poller of the job with that ID,
      or closed. */
  datatype Chan = Open(id: string) | Closed

  /** The registry: `jobs` and `stopChans` keyed by job ID, with the stop
      channels numbered by `stopChans`; `chans` holds every channel made so
      far, in creation order. */
  datatype Registry = Registry(jobs: map<string, Job>, stopChans: map<string, nat>, chans: seq<Chan>)

  /** Whether a poller still runs: its channel has been made and is open. */
  predicate Running(reg: Registry, c: nat) {
    c < |reg.chans| && reg.chans[c].Open?
  }

  /** The registry invariant: both maps have the same keys, each job sits under
      its own ID, each tracked channel is open for its ID, and every open
      channel, that is every running poller, is tracked. */
  ghost predicate Valid(reg: Registry) {
    && reg.jobs.Keys == reg.stopChans.Keys
    && (forall id | id in reg.jobs :: JobId(reg.jobs[id]) == id)
    && (forall id | id in reg.stopChans :: reg.stopChans[id] < |reg.chans| && reg.chans[reg.stopChans[id]] == Open(id))
    && (forall c | 0 <= c < |reg.chans| && reg.chans[c].Open? ::
          reg.chans[c].id in reg.stopChans && reg.stopChans[reg.chans[c].id] == c)
  }

  /** The registry NewScheduler makes. */
  function EmptyRegistry(): (reg: Registry)
    ensures Valid(reg) && reg.jobs == map[]
    ensures forall c: nat :: !Running(reg, c)
  {
    Registry(map[], map[], [])
  }

  /** addJob: a no-op when the ID is present; otherwise the job and a fresh
      open channel are added under its ID, and one poller starts. */
  function AddJob(reg: Registry, job: Job): (r: Registry)
    ensures JobId(job) in reg.jobs ==> r == reg
    ensures JobId(job) !in reg.jobs ==>
              && r.jobs == reg.jobs[JobId(job) := job]
              && r.stopChans == reg.stopChans[JobId(job) := |reg.chans|]
              && r.chans == reg.chans + [Open(JobId(job))]
    ensures Valid(reg) ==> Valid(r)
  {
    var id := JobId(job);
    if id in reg.jobs then reg
    else Registry(reg.jobs[id := job], reg.stopChans[id := |reg.chans|], reg.chans + [Open(id)])
  }

  /** After addJob the ID is present, whether or not it was before. */
  lemma AddJobKeys(reg: Registry, job: Job)
    ensures AddJob(reg, job).jobs.Keys == reg.jobs.Keys + {JobId(job)}
  {
  }

  /** removeJob: closes the ID's channel if it has one, which stops its
      poller, and deletes the ID from both maps; other entries and pollers are
      untouched, and removing an absent ID changes nothing. */
  function RemoveJob(reg: Registry, id: string): (r: Registry)
    ensures r.jobs == reg.jobs - {id} && r.stopChans == reg.stopChans - {id}
    ensures |r.chans| == |reg.chans|
    ensures id in reg.stopChans && reg.stopChans[id] < |reg.chans| ==>
              && !Running(r, reg.stopChans[id])
              && forall c: nat | c != reg.stopChans[id] :: Running(r, c) == Running(reg, c)
    ensures id !in reg.jobs && id !in reg.stopChans ==> r == reg
    ensures Valid(reg) ==> Valid(r)
  {
    var r := if id in reg.stopChans && reg.stopChans[id] < |reg.chans| then
               Registry(reg.jobs - {id}, reg.stopChans - {id}, reg.chans[reg.stopChans[id] := Closed])
             else
               Registry(reg.jobs - {id}, reg.stopChans - {id}, reg.chans);
    ForgettingKeepsValid(reg, id, r);
    r
  }

  /** Dropping an ID from both maps and closing at most its own channel keeps
      the registry invariant. */
  lemma ForgettingKeepsValid(reg: Registry, id: string, r: Registry)
    requires r.jobs == reg.jobs - {id} && r.stopChans == reg.stopChans - {id} && |r.chans| == |reg.chans|
    requires forall c | 0 <= c < |reg.chans| ::
               r.chans[c] == (if id in reg.stopChans && c == reg.stopChans[id] then Closed else reg.chans[c])
    ensures Valid(reg) ==> Valid(r)
  {
  }
}

=== FILE: models.dfy ===
/** The records of models/models.go and models/cron_tracker.go. */
module Models {
  import opened Wrappers

  /** A wall-clock instant (Go's time.Time), abstracted to an integer. */
  type Instant = int

  /** models.Date: a calendar date carrying the time.Time it denotes. */
  datatype Date = Date(time: Instant)

  datatype OwnerAndRepoName = OwnerAndRepoName(ownerName: string, repoName: string)

  /** The configuration of one monitored repository, as persisted in the config store. */
  datatype MonitorConfig = MonitorConfig(
    repoName: string,
    ownerName: string,
    fromDate: string,
    toDate: string,
    durationInHours: int)
  {
    /** The (owner, repo) pair the config store is keyed by. */
    function Name(): OwnerAndRepoName {
      OwnerAndRepoName(ownerName, repoName)
    }
  }

  datatype Commit = Commit(
    date: Instant,
    message: string,
    author: string,
    repoName: string,
    ownerName: string,
    url: string,
    sha: string,
    parentCommitIds: seq<string>)

  /** Query and mirror window; `None` dates are Go's nil `*Date`. */
  datatype CommitFilters = CommitFilters(
    name: OwnerAndRepoName,
    limit: int,
    page: int,
    fromDate: Option<Date>,
    toDate: Option<Date>)

  datatype TopCommitAuthor = TopCommitAuthor(author: string, commitCount: int)

  /** The job key `fmt.Sprintf("%s/%s", RepoName, OwnerName)`: repository name first. */
  function JobKey(repoName: string, ownerName: string): (id: string)
    ensures |id| == |repoName| + 1 + |ownerName|
    ensures id[..|repoName|] == repoName
    ensures id[|repoName|] == '/'
    ensures id[|repoName| + 1..] == ownerName
  {
    repoName + "/" + ownerName
  }

  /** MonitorRepositoryCommitConfig.ID(): depends on the two names only. */
  function ConfigId(c: MonitorConfig): string {
    JobKey(c.repoName, c.ownerName)
  }

  /** When repository names contain no '/', the key determines both names:
      the first '/' of the key ends the repository name. */
  lemma {:induction false} JobKeyInjective(r1: string, o1: string, r2: string, o2: string)
    requires '/' !in r1 && '/' !in r2
    requires JobKey(r1, o1) == JobKey(r2, o2)
    ensures r1 == r2 && o1 == o2
  {
  }

  /** Without that restriction, two different repositories share one key. */
  lemma JobKeyCollides()
    ensures JobKey("a/b", "c") == JobKey("a", "b/c")
    ensures OwnerAndRepoName("c", "a/b") != OwnerAndRepoName("b/c", "a")
  {
  }
}

=== FILE: repository.dfy ===
/** The two store interfaces of repository/repository.go.

    The SQL implementations are not part of this model. A store is abstracted to
    its state plus oracle functions that answer each call from that state, so any
    call may fail. */
module Repository {
  import opened Wrappers
  import opened Errors
  import opened Models

  /** repository.DataStore. Its state is the sequence of commits saved so far, in
      save order; every query is answered from that sequence. */
  datatype DataStore = DataStore(
    saveCommit: (seq<Commit>, Commit) -> Option<Error>,
    listCommits: (seq<Commit>, CommitFilters) -> Result<seq<Commit>, Error>,
    getLastCommit: (seq<Commit>, OwnerAndRepoName) -> Result<Commit, Error>,
    getCommitBySha: (seq<Commit>, OwnerAndRepoName, string) -> Result<Commit, Error>,
    getTopCommitAuthors: (seq<Commit>, CommitFilters) -> Result<seq<TopCommitAuthor>, Error>)

  /** The state of repository.CronServiceStore: one config per (owner, repo). */
  type ConfigStore = map<OwnerAndRepoName, MonitorConfig>

  /** Whether each config-store call made by one scheduler operation fails. */
  datatype ConfigAnswers = ConfigAnswers(getFails: bool, deleteFails: bool, saveFails: bool)

  /** Every stored config sits under its own (owner, repo) key. */
  ghost predicate Keyed(store: ConfigStore) {
    forall k | k in store :: store[k].Name() == k
  }

  /** GetMonitorConfig as the scheduler sees it: its error is discarded, so a
      failed lookup reads as "no config". */
  function GetMonitorConfig(store: ConfigStore, name: OwnerAndRepoName, fails: bool): (r: Option<MonitorConfig>)
    ensures r.Some? <==> !fails && name in store
    ensures r.Some? ==> r.value == store[name]
  {
    if fails || name !in store then None else Some(store[name])
  }

  /** SaveMonitorConfigs: a plain INSERT into a table unique on (repo, owner),
      so it fails when the key is already stored, and also whenever `fails`
      says the statement fails. On success the config is added under its own
      key and every other entry is kept. */
  function SaveMonitorConfig(store: ConfigStore, config: MonitorConfig, fails: bool): (r: Option<ConfigStore>)
    ensures r.Some? <==> !fails && config.Name() !in store
    ensures r.Some? ==> r.value.Keys == store.Keys + {config.Name()} && r.value[config.Name()] == config
    ensures r.Some? ==> forall k | k in store :: r.value[k] == store[k]
    ensures r.Some? && Keyed(store) ==> Keyed(r.value)
  {
    if fails || config.Name() in store then None else Some(store[config.Name() := config])
  }

  /** DeleteMonitorConfig on success. */
  function DeleteMonitorConfig(store: ConfigStore, name: OwnerAndRepoName): (r: ConfigStore)
    ensures r.Keys == store.Keys - {name}
    ensures forall k | k in r :: r[k] == store[k]
    ensures Keyed(store) ==> Keyed(r)
  {
    store - {name}
  }
}

=== FILE: scheduler.dfy ===
/** The scheduler façade of scheduler/scheduler.go.

    Its state is the config store, the job registry and the event store's log
    of published (topic, payload) pairs; the payload is the config that
    json.Marshal serialises. */
module Scheduler {
  import opened Wrappers
  import opened Errors
  import opened Models
  import Topics
  import opened Repository
  import opened JobTracker

  datatype Event = Event(topic: string, payload: MonitorConfig)

  datatype SchedulerState = SchedulerState(configs: ConfigStore, registry: Registry, events: seq<Event>)

  /** The result of Start or Stop: the new state and the returned error. */
  datatype Step = Step(state: SchedulerState, err: Option<Error>)

  /** The job IDs of the stored configs. */
  ghost function Ids(configs: ConfigStore): set<string> {
    set k | k in configs :: ConfigId(configs[k])
  }

  /** No stored repository name contains '/', so job IDs tell configs apart. */
  ghost predicate SlashFreeRepos(configs: ConfigStore) {
    forall k | k in configs :: '/' !in k.repoName
  }

  /** The config store and the registry agree: there is a job exactly for the
      ID of each stored config. */
  ghost predicate Consistent(s: SchedulerState) {
    && Keyed(s.configs)
    && SlashFreeRepos(s.configs)
    && Valid(s.registry)
    && s.registry.jobs.Keys == Ids(s.configs)
  }

  /** The job IDs of a listing of configs. */
  ghost function ListedIds(list: seq<MonitorConfig>): set<string> {
    set c | c in list :: ConfigId(c)
  }

  lemma ListedIdsExtend(list: seq<MonitorConfig>, i: nat)
    requires i < |list|
    ensures ListedIds(list[..i + 1]) == ListedIds(list[..i]) + {ConfigId(list[i])}
  {
    assert list[..i + 1] == list[..i] + [list[i]];
    assert forall x :: x in list[..i + 1] <==> x in list[..i] || x == list[i];
  }

  /** A listing holding exactly the stored configs names exactly their IDs. */
  lemma ListedIdsAreStoreIds(configs: ConfigStore, list: seq<MonitorConfig>)
    requires forall c :: c in list <==> c in configs.Values
    ensures ListedIds(list) == Ids(configs)
  {
    forall c | c in list ensures ConfigId(c) in Ids(configs) {
      var k :| k in configs && configs[k] == c;
    }
    forall k | k in configs ensures ConfigId(configs[k]) in ListedIds(list) {
      assert configs[k] in configs.Values;
    }
  }

  /** A registry holding exactly the IDs of a listing of the whole store agrees with the store. */
  lemma BootIsConsistent(s: SchedulerState, list: seq<MonitorConfig>)
    requires Keyed(s.configs) && SlashFreeRepos(s.configs) && Valid(s.registry)
    requires forall c :: c in list <==> c in s.configs.Values
    requires s.registry.jobs.Keys == ListedIds(list)
    ensures Consistent(s)
  {
    ListedIdsAreStoreIds(s.configs, list);
  }

  /** NewScheduler: the given stores and an empty registry. */
  function NewScheduler(configs: ConfigStore, events: seq<Event>): (s: SchedulerState)
    ensures s.configs == configs && s.events == events
    ensures s.registry.jobs == map[] && s.registry.stopChans == map[]
    ensures Valid(s.registry) && forall c: nat :: !Running(s.registry, c)
  {
    SchedulerState(configs, EmptyRegistry(), events)
  }

  /** StartMirroringRepoCommits. An existing config is deleted and its job
      removed first; a failed delete stops everything. A failed save returns
      ErrFailedToStartMonitoringRepoCommits after that removal, with no job
      added and no event; the save also fails when the lookup failed over a
      stored key, since the insert then meets the table's unique key.
      Otherwise the payload is stored, its job added and one
      MonitorTaskCreated event appended. */
  function StartMirroringRepoCommits(s: SchedulerState, payload: MonitorConfig, answers: ConfigAnswers): (r: Step)
    ensures var existing := GetMonitorConfig(s.configs, payload.Name(), answers.getFails);
            && (existing.Some? && answers.deleteFails ==> r == Step(s, Some(FailedToStopMonitoringRepoCommits)))
            && (existing.None? && (answers.saveFails || payload.Name() in s.configs) ==>
                  r == Step(s, Some(FailedToStartMonitoringRepoCommits)))
            && (existing.Some? && !answers.deleteFails && answers.saveFails ==>
                  && r.err == Some(FailedToStartMonitoringRepoCommits)
                  && r.state.configs == s.configs - {payload.Name()}
                  && r.state.registry == RemoveJob(s.registry, ConfigId(existing.value))
                  && r.state.events == s.events)
            && (r.err.None? <==> !answers.saveFails && (if existing.Some? then !answers.deleteFails else payload.Name() !in s.configs))
    ensures r.err.Some? ==> r.state.events == s.events && r.state.registry.jobs.Keys <= s.registry.jobs.Keys
    ensures r.err.None? ==>
              && r.state.configs == s.configs[payload.Name() := payload]
              && ConfigId(payload) in r.state.registry.jobs
              && r.state.events == s.events + [Event(Topics.MonitorTaskCreated, payload)]
    ensures r.err.None? && Keyed(s.configs) && Valid(s.registry) &&
            (payload.Name() in s.configs || ConfigId(payload) !in s.registry.jobs) ==>
              r.state.registry.jobs[ConfigId(payload)] == Job(payload)
    ensures var existing := GetMonitorConfig(s.configs, payload.Name(), answers.getFails);
            r.err.None? ==>
              r.state.registry == AddJob(if existing.Some? then RemoveJob(s.registry, ConfigId(existing.value)) else s.registry,
                                         Job(payload))
    ensures Valid(s.registry) ==> Valid(r.state.registry)
  {
    var name := payload.Name();
    var existing := GetMonitorConfig(s.configs, name, answers.getFails);
    if existing.Some? && answers.deleteFails then
      Step(s, Some(FailedToStopMonitoringRepoCommits))
    else
      var configs := if existing.Some? then DeleteMonitorConfig(s.configs, name) else s.configs;
      var registry := if existing.Some? then RemoveJob(s.registry, ConfigId(existing.value)) else s.registry;
      match SaveMonitorConfig(configs, payload, answers.saveFails)
      case None =>
        Step(SchedulerState(configs, registry, s.events), Some(FailedToStartMonitoringRepoCommits))
      case Some(saved) =>
        assert saved == s.configs[name := payload];
        Step(SchedulerState(saved, AddJob(registry, Job(payload)),
                            s.events + [Event(Topics.MonitorTaskCreated, payload)]), None)
  }

  /** StopMirroringRepoCommits. With no config found (absent, or the lookup
      failed) it returns nil and changes nothing. A failed delete returns
      ErrFailedToStopMonitoringRepoCommits and changes nothing. Otherwise the
      config is deleted, its job removed and one MonitorTaskDeleted event
      carrying the deleted config appended. */
  function StopMirroringRepoCommits(s: SchedulerState, name: OwnerAndRepoName, answers: ConfigAnswers): (r: Step)
    ensures var existing := GetMonitorConfig(s.configs, name, answers.getFails);
            && (existing.None? ==> r == Step(s, None))
            && (existing.Some? && answers.deleteFails ==> r == Step(s, Some(FailedToStopMonitoringRepoCommits)))
            && (existing.Some? && !answers.deleteFails ==>
                  && r.err.None?
                  && r.state.configs == s.configs - {name}
                  && r.state.registry == RemoveJob(s.registry, ConfigId(existing.value))
                  && r.state.events == s.events + [Event(Topics.MonitorTaskDeleted, existing.value)])
    ensures r.err.Some? ==> r.state == s
    ensures Keyed(s.configs) && r.state != s ==> name !in r.state.configs && ConfigId(s.configs[name]) !in r.state.registry.jobs
    ensures Valid(s.registry) ==> Valid(r.state.registry)
  {
    var existing := GetMonitorConfig(s.configs, name, answers.getFails);
    if existing.None? then
      Step(s, None)
    else if answers.deleteFails then
      Step(s, Some(FailedToStopMonitoringRepoCommits))
    else
      Step(SchedulerState(DeleteMonitorConfig(s.configs, name),
                          RemoveJob(s.registry, ConfigId(existing.value)),
                          s.events + [Event(Topics.MonitorTaskDeleted, existing.value)]), None)
  }

  /** The loop of loadExistingConfig: adds each listed config's job in order
      and collects the jobs whose catch-up task runs. */
  method AddListedJobs(registry: Registry, list: seq<MonitorConfig>) returns (r: Registry, catchUps: seq<Job>)
    ensures r.jobs.Keys == registry.jobs.Keys + ListedIds(list)
    ensures |catchUps| == |list| && forall i | 0 <= i < |list| :: catchUps[i] == Job(list[i])
    ensures Valid(registry) ==> Valid(r)
  {
    r := registry;
    var i := 0;
    while i < |list|
      invariant 0 <= i <= |list|
      invariant r.jobs.Keys == registry.jobs.Keys + ListedIds(list[..i])
      invariant Valid(registry) ==> Valid(r)
    {
      ListedIdsExtend(list, i);
      AddJobKeys(r, Job(list[i]));
      r := AddJob(r, Job(list[i]));
      i := i + 1;
    }
    assert list[..i] == list;
    catchUps := seq(|list|, j requires 0 <= j < |list| => Job(list[j]));
  }

  /** loadExistingConfig. A failed listing changes nothing. Otherwise each
      listed config's job is added, and `catchUps` lists, in listing order,
      the jobs whose `Task(false)` runs once as a catch-up (RunTask). Loading
      a listing of the whole store into a new scheduler makes store and
      registry agree. */
  method LoadExistingConfig(s: SchedulerState, listing: Result<seq<MonitorConfig>, Error>)
    returns (s': SchedulerState, catchUps: seq<Job>)
    ensures s'.configs == s.configs && s'.events == s.events
    ensures listing.Failure? ==> s' == s && catchUps == []
    ensures listing.Success? ==>
              && s'.registry.jobs.Keys == s.registry.jobs.Keys + ListedIds(listing.value)
              && |catchUps| == |listing.value|
              && (forall i | 0 <= i < |listing.value| :: catchUps[i] == Job(listing.value[i]))
    ensures Valid(s.registry) ==> Valid(s'.registry)
    ensures && listing.Success?
            && s.registry.jobs == map[] && Valid(s.registry)
            && Keyed(s.configs) && SlashFreeRepos(s.configs)
            && (forall c :: c in listing.value <==> c in s.configs.Values)
            ==> Consistent(s')
  {
    if listing.Failure? {
      return s, [];
    }
    var registry;
    registry, catchUps := AddListedJobs(s.registry, listing.value);
    s' := SchedulerState(s.configs, registry, s.events);
    if s.registry.jobs == map[] && Valid(s.registry) && Keyed(s.configs) && SlashFreeRepos(s.configs)
       && (forall c :: c in listing.value <==> c in s.configs.Values) {
      BootIsConsistent(s', listing.value);
    }
  }
}

=== FILE: scheduler_properties.dfy ===
/** Whole-system properties of the scheduler: the config store and the job
    registry agree after any sequence of Start and Stop calls, whatever store
    calls fail, provided repository names contain no '/'; and two ways the
    agreement weakens. */
module SchedulerProperties {
  import opened Wrappers
  import opened Errors
  import opened Models
  import opened Repository
  import opened JobTracker
  import opened Scheduler
  import Topics

  /** Replacing or adding a config under its own key adds its ID and drops none. */
  lemma IdsAfterSave(configs: ConfigStore, c: MonitorConfig)
    requires Keyed(configs)
    ensures Ids(configs[c.Name() := c]) == Ids(configs) + {ConfigId(c)}
  {
    var after := configs[c.Name() := c];
    forall k | k in configs ensures ConfigId(configs[k]) in Ids(after) {
      if k == c.Name() {
        assert ConfigId(after[k]) == ConfigId(configs[k]);
      } else {
        assert after[k] == configs[k];
      }
    }
    assert ConfigId(after[c.Name()]) == ConfigId(c);
  }

  /** Deleting a config drops exactly its ID, since no other config shares it. */
  lemma IdsAfterDelete(configs: ConfigStore, name: OwnerAndRepoName)
    requires Keyed(configs) && SlashFreeRepos(configs) && name in configs
    ensures Ids(configs - {name}) == Ids(configs) - {ConfigId(configs[name])}
  {
    var gone := ConfigId(configs[name]);
    var after := configs - {name};
    forall id | id in Ids(after) ensures id in Ids(configs) - {gone} {
      var k :| k in after && ConfigId(after[k]) == id;
      if id == gone {
        JobKeyInjective(k.repoName, k.ownerName, name.repoName, name.ownerName);
        assert false;
      }
    }
    forall id | id in Ids(configs) - {gone} ensures id in Ids(after) {
      var k :| k in configs && ConfigId(configs[k]) == id;
      assert k in after && after[k] == configs[k];
    }
  }

  /** Deleting a stored config and removing its job, the step Start and Stop
      share, keeps the store and the registry in agreement. */
  lemma DeleteKeepsConsistency(s: SchedulerState, name: OwnerAndRepoName)
    requires Consistent(s) && name in s.configs
    ensures Consistent(SchedulerState(s.configs - {name}, RemoveJob(s.registry, ConfigId(s.configs[name])), s.events))
  {
    IdsAfterDelete(s.configs, name);
  }

  /** Start when an existing config was found and deleted. */
  lemma StartAfterDeleteKeepsConsistency(s: SchedulerState, payload: MonitorConfig, answers: ConfigAnswers)
    requires Consistent(s) && '/' !in payload.repoName
    requires GetMonitorConfig(s.configs, payload.Name(), answers.getFails).Some? && !answers.deleteFails
    ensures Consistent(StartMirroringRepoCommits(s, payload, answers).state)
  {
    var name := payload.Name();
    var mid := SchedulerState(s.configs - {name}, RemoveJob(s.registry, ConfigId(s.configs[name])), s.events);
    DeleteKeepsConsistency(s, name);
    var r := StartMirroringRepoCommits(s, payload, answers).state;
    if answers.saveFails {
      assert r == mid;
    } else {
      assert SaveMonitorConfig(mid.configs, payload, false) == Some(mid.configs[name := payload]);
      assert r == SchedulerState(mid.configs[name := payload], AddJob(mid.registry, Job(payload)),
                                 s.events + [Event(Topics.MonitorTaskCreated, payload)]);
      AddJobKeys(mid.registry, Job(payload));
      IdsAfterSave(mid.configs, payload);
    }
  }

  /** Start that saves without a prior delete: no config was found, because
      there is none or the lookup failed. */
  lemma StartWithoutDeleteKeepsConsistency(s: SchedulerState, payload: MonitorConfig, answers: ConfigAnswers)
    requires Consistent(s) && '/' !in payload.repoName
    requires GetMonitorConfig(s.configs, payload.Name(), answers.getFails).None? && !answers.saveFails
    requires payload.Name() !in s.configs
    ensures Consistent(StartMirroringRepoCommits(s, payload, answers).state)
  {
    assert SaveMonitorConfig(s.configs, payload, false) == Some(s.configs[payload.Name() := payload]);
    var r := StartMirroringRepoCommits(s, payload, answers).state;
    var added := AddJob(s.registry, Job(payload));
    assert r == SchedulerState(s.configs[payload.Name() := payload], added,
                               s.events + [Event(Topics.MonitorTaskCreated, payload)]);
    AddJobKeys(s.registry, Job(payload));
    IdsAfterSave(s.configs, payload);
  }

  lemma {:induction false} StartKeepsConsistency(s: SchedulerState, payload: MonitorConfig, answers: ConfigAnswers)
    requires Consistent(s) && '/' !in payload.repoName
    ensures Consistent(StartMirroringRepoCommits(s, payload, answers).state)
  {
    var existing := GetMonitorConfig(s.configs, payload.Name(), answers.getFails);
    if existing.None? && !answers.saveFails && payload.Name() !in s.configs {
      StartWithoutDeleteKeepsConsistency(s, payload, answers);
    } else if existing.Some? && !answers.deleteFails {
      StartAfterDeleteKeepsConsistency(s, payload, answers);
    }
  }

  lemma {:induction false} StopKeepsConsistency(s: SchedulerState, name: OwnerAndRepoName, answers: ConfigAnswers)
    requires Consistent(s)
    ensures Consistent(StopMirroringRepoCommits(s, name, answers).state)
  {
    if GetMonitorConfig(s.configs, name, answers.getFails).Some? && !answers.deleteFails {
      DeleteKeepsConsistency(s, name);
    }
  }

  /** A client call on the scheduler, with the store answers it meets. */
  datatype Command =
    | Start(payload: MonitorConfig, answers: ConfigAnswers)
    | Stop(name: OwnerAndRepoName, answers: ConfigAnswers)

  function Apply(s: SchedulerState, cmd: Command): Step {
    match cmd
    case Start(payload, answers) => StartMirroringRepoCommits(s, payload, answers)
    case Stop(name, answers) => StopMirroringRepoCommits(s, name, answers)
  }

  /** The state after the commands, one after the other. */
  function Run(s: SchedulerState, cmds: seq<Command>): SchedulerState
    decreases |cmds|
  {
    if |cmds| == 0 then s else Run(Apply(s, cmds[0]).state, cmds[1..])
  }

  /** After any sequence of Start and Stop calls, with any store failures,
      there is a job exactly for each stored config. */
  lemma {:induction false} RunKeepsConsistency(s: SchedulerState, cmds: seq<Command>)
    requires Consistent(s)
    requires forall i | 0 <= i < |cmds| :: cmds[i].Start? ==> '/' !in cmds[i].payload.repoName
    ensures Consistent(Run(s, cmds))
    decreases |cmds|
  {
    if |cmds| > 0 {
      match cmds[0] {
        case Start(payload, answers) => StartKeepsConsistency(s, payload, answers);
        case Stop(name, answers) => StopKeepsConsistency(s, name, answers);
      }
      assert forall i | 0 <= i < |cmds[1..]| :: cmds[1..][i] == cmds[i + 1];
      RunKeepsConsistency(Apply(s, cmds[0]).state, cmds[1..]);
    }
  }

  /** Three commands run one after the other. */
  lemma RunThree(s: SchedulerState, c0: Command, c1: Command, c2: Command)
    ensures Run(s, [c0, c1, c2]) == Apply(Apply(Apply(s, c0).state, c1).state, c2).state
  {
    var cmds := [c0, c1, c2];
    assert cmds[1..] == [c1, c2] && cmds[1..][1..] == [c2] && cmds[1..][1..][1..] == [];
    var s1 := Apply(s, c0).state;
    var s2 := Apply(s1, c1).state;
    calc {
      Run(s, cmds);
      Run(s1, [c1, c2]);
      Run(s2, [c2]);
      Run(Apply(s2, c2).state, []);
    }
  }

  /** Two repositories whose job IDs coincide (JobKeyCollides shows such a
      pair): after starting both and stopping one, the other stays configured
      with no job polling it. */
  lemma {:induction false} SharedIdOrphansConfig(s: SchedulerState, a: MonitorConfig, b: MonitorConfig)
    requires ConfigId(a) == ConfigId(b) && a.Name() != b.Name()
    requires a.Name() !in s.configs && b.Name() !in s.configs
    ensures var ok := ConfigAnswers(false, false, false);
            var after := Run(s, [Start(a, ok), Start(b, ok), Stop(a.Name(), ok)]);
            b.Name() in after.configs && ConfigId(b) !in after.registry.jobs
  {
    var ok := ConfigAnswers(false, false, false);
    RunThree(s, Start(a, ok), Start(b, ok), Stop(a.Name(), ok));
    var s1 := StartMirroringRepoCommits(s, a, ok).state;
    assert s1.configs == s.configs[a.Name() := a];
    var s2 := StartMirroringRepoCommits(s1, b, ok).state;
    assert s2.configs == s1.configs[b.Name() := b];
    var s3 := StopMirroringRepoCommits(s2, a.Name(), ok).state;
    assert s3.configs == s2.configs - {a.Name()};
    assert s3.registry.jobs == s2.registry.jobs - {ConfigId(a)};
  }

  /** A failed lookup on Start skips the delete, so the insert meets the
      stored key and fails: Start reports ErrFailedToStartMonitoringRepoCommits
      and the stored config and its job stay as they were. */
  lemma LookupFailureRejectsRestart(s: SchedulerState, payload: MonitorConfig, answers: ConfigAnswers)
    requires payload.Name() in s.configs && answers.getFails
    ensures StartMirroringRepoCommits(s, payload, answers) == Step(s, Some(FailedToStartMonitoringRepoCommits))
  {
  }

  /** On a consistent scheduler, a Start that succeeds leaves the payload's own
      job under its ID: a job under that ID can only belong to the config
      stored under the payload's name, and that one was deleted first. */
  lemma {:induction false} StartInstallsPayloadJob(s: SchedulerState, payload: MonitorConfig, answers: ConfigAnswers)
    requires Consistent(s) && '/' !in payload.repoName
    ensures var r := StartMirroringRepoCommits(s, payload, answers);
            r.err.None? ==> r.state.registry.jobs[ConfigId(payload)] == Job(payload)
  {
    var name := payload.Name();
    if name !in s.configs && ConfigId(payload) in s.registry.jobs {
      var k :| k in s.configs && ConfigId(s.configs[k]) == ConfigId(payload);
      JobKeyInjective(k.repoName, k.ownerName, payload.repoName, payload.ownerName);
      assert false;
    }
  }

  /** A Start that succeeds touches only the payload's ID and the replaced
      config's ID: every other job stays, every other poller keeps running,
      and the replaced job's poller is stopped. */
  lemma StartReplacesOnlyItsJob(s: SchedulerState, payload: MonitorConfig, answers: ConfigAnswers)
    requires Valid(s.registry)
    ensures var existing := GetMonitorConfig(s.configs, payload.Name(), answers.getFails);
            var r := StartMirroringRepoCommits(s, payload, answers);
            var touched := {ConfigId(payload)} + (if existing.Some? then {ConfigId(existing.value)} else {});
            r.err.None? ==>
              && (forall id | id in s.registry.jobs && id !in touched ::
                    id in r.state.registry.jobs && r.state.registry.jobs[id] == s.registry.jobs[id])
              && (forall c: nat | Running(s.registry, c) && s.registry.chans[c].id !in touched ::
                    Running(r.state.registry, c))
              && (existing.Some? && ConfigId(existing.value) in s.registry.stopChans ==>
                    !Running(r.state.registry, s.registry.stopChans[ConfigId(existing.value)]))
  {
  }
}

=== FILE: topics.dfy ===
/** The event-store topics of events/topics/topics.go used by the scheduler. */
module Topics {
  const MonitorTaskCreated: string := "gitbeam.commit.monitor.task.created"
  const MonitorTaskDeleted: string := "gitbeam.commit.monitor.task.deleted"
}

=== FILE: wrappers.dfy ===
/** Failure-carrying values standing in for Go's nil pointers and `(value, error)` pairs. */
module Wrappers {

  /** A possibly-absent value; `None` plays the role of a nil pointer. */
  datatype Option<+T> = None | Some(value: T)

  /** The outcome of a call that returns a value or an error. */
  datatype Result<+R, +E> = Success(value: R) | Failure(error: E)
}
